=== FILE: README.md ===
# fhsshop hop-table derivation in Dafny

This project models `gen_fhss_hops.py`, which turns a binding phrase and a
regulatory domain into the 256-entry frequency-hopping channel table that the
paired radio firmware computes. The model covers the whole chain:

- **UID** (`Uid`, with `Text` for splitting, decimal tokens and UTF-8). The
  phrase is split on commas. Four to six ASCII-decimal tokens, each below 256
  and short enough for `int()` to read, give the UID directly, left-padded
  with zero bytes to six. Any other phrase gives the first six bytes of the
  MD5 digest of `-DMY_BINDING_PHRASE="<phrase>"`.
- **Seed** (`Seed`, with `Bits` for Python's `<<`, `|`, `^`, `&` on unbounded
  integers). `uid[2..5]` are packed big-endian into a 32-bit word, with the
  last byte XOR-ed with `OTA_VERSION_ID = 4`.
- **Generator** (`Lcg`). The firmware LCG:
  `state = (1103515245 * state + 12345) & 0x7FFFFFFF`. `rand()` returns the new
  state. `rand_range(m)` reduces it with Python's `%`.
- **Sequence builder** (`Fhss`). First, the allocation: each block of
  `freq_count` positions starts on the sync channel `freq_count // 2`, and
  channel 0 takes the slot the sync channel would have had. Then the
  sequential in-block shuffle runs. `BuildSequence` does this on an array, and
  `ShuffleFrom` is the functional reference definition it is proved equal to.
- **Domain table** (`Domains`) and the end-to-end derivation `main` performs
  (`Pipeline`).

MD5 is an external library. Every operation that needs it takes it as a
parameter `md5: seq<Byte> -> Digest`, where a `Digest` is 16 bytes.

Two consequences of the code that the model proves, and relies on:

- The shuffle never changes a block-start entry. The swap source `i` is never
  a block start, and the target `block_start + rand_offset` has `rand_offset`
  in `[1, freq_count-1]`, so it is never one either (`gen_fhss_hops.py:150-153`).
  `Fhss.ShuffledTable` and `Fhss.BuildSequence` prove that every block start
  still holds the sync channel after the shuffle.
- Any channel count of at least 1 is accepted, since nothing in
  `FHSSGenerator` bounds it (`gen_fhss_hops.py:118-157`). With a count above
  256 there are no full blocks, and every out-of-table target is skipped.

## Model

| member | source | states |
|---|---|---|
| Uid.TokenValue | gen_fhss_hops.py:54-60 | a token reads as the sentinel -1 exactly when it is not a non-empty run of digits or is longer than the 4300 digits `int()` converts (its `ValueError` reaches the same fallback); any other token reads as its decimal value |
| Uid.TokenValues | gen_fhss_hops.py:54-55 | one value per token, in token order, and all values pass line 55's range test exactly when every token is a byte token |
| Uid.ParseUid | gen_fhss_hops.py:54-58 | the direct path succeeds iff the phrase has 4 to 6 comma tokens, each at most 4300 digits with value < 256; its result is 6 bytes: `6-k` zeros, then the `k` token values in order |
| Uid.GenerateUid | gen_fhss_hops.py:53-60 | the UID is always 6 bytes; the direct-path phrases give the padded values, and every other phrase, including one whose `int()` raises, gives the first 6 bytes of the MD5 of the build-flag string |
| Uid.UidOfFormattedPhrase | gen_fhss_hops.py:54-57 | round trip: writing any 4 to 6 bytes as comma-separated decimals and deriving the UID gives those bytes back, left-padded with zeros |
| Uid.DefaultPhraseUid | gen_fhss_hops.py:54-57 | the default phrase "42,13,9,8" gives UID 00 00 2A 0D 09 08 |
| Uid.WrongCountIsHashed | gen_fhss_hops.py:54-60 | a phrase with fewer than 3 or more than 5 commas takes the MD5 path |
| Uid.EmptyPhraseIsHashed | gen_fhss_hops.py:54-60 | the empty phrase (one empty token) hashes `-DMY_BINDING_PHRASE=""` |
| Uid.StrayCharacterIsHashed | gen_fhss_hops.py:54-60 | a phrase holding any character other than a digit or a comma (a sign, a space, a letter) takes the MD5 path |
| Uid.LongTokenIsHashed | gen_fhss_hops.py:54-60 | a digit token longer than 4300 digits makes `int()` raise, and the phrase goes to the MD5 path whatever its other tokens are |
| Uid.ToBytes | gen_fhss_hops.py:57 | `bytes(...)` of in-range values keeps their count, order and values |
| Bytes.Zeros | gen_fhss_hops.py:56 | `[0] * n` is `n` zero bytes |
| Uid.LargeValueIsHashed | gen_fhss_hops.py:54-60 | a digit token whose value is 256 or more sends the phrase to the MD5 path |
| Uid.BindingFlag | gen_fhss_hops.py:60 | the f-string is the prefix `-DMY_BINDING_PHRASE="`, then the phrase unchanged, then one closing `"` |
| Uid.HashedUid | gen_fhss_hops.py:60 | the fallback UID is 6 bytes: the first 6 of the MD5 digest of the prefix's ASCII bytes, the phrase's UTF-8 bytes and the quote byte 0x22 |
| Uid.FlagPrefixBytes | gen_fhss_hops.py:60 | the flag prefix encodes to its 21 ASCII codes |
| Uid.BindingFlagBytes | gen_fhss_hops.py:60 | the hashed bytes are the flag prefix's bytes, then the phrase's UTF-8 bytes, then a closing quote byte |
| Text.Split | gen_fhss_hops.py:54 | `str.split(',')` yields at least one token, and no token contains the separator |
| Text.JoinSplit | gen_fhss_hops.py:54 | joining the tokens of a split with the separator rebuilds the phrase |
| Text.SplitJoin | gen_fhss_hops.py:54 | splitting a join of separator-free tokens returns exactly those tokens |
| Text.SplitLength | gen_fhss_hops.py:54-55 | the token count that line 55 tests is the comma count plus one |
| Text.DecimalRoundTrip | gen_fhss_hops.py:54 | `int()` of the decimal spelling of `n` is `n` |
| Text.DecimalLeadingZero | gen_fhss_hops.py:54 | a leading zero does not change the value `int()` reads, so `"05"` reads as 5 |
| Text.ByteSpellingLength | gen_fhss_hops.py:54 | a byte value is spelled with at most three digits, well inside `int()`'s digit limit |
| Text.EncodeChar | gen_fhss_hops.py:60 | a character's UTF-8 encoding is the shortest form: 1 byte below U+0080, 2 below U+0800, 3 below U+10000 and 4 above; the lead byte is below 0x80 iff it stands alone, and continuation bytes lie in [0x80, 0xC0) |
| Text.EncodeCharRoundTrip | gen_fhss_hops.py:60 | decoding a character's UTF-8 bytes gives back its code point |
| Text.Utf8 | gen_fhss_hops.py:60 | `str.encode()` gives between 1 and 4 bytes per character |
| Text.Utf8Ascii | gen_fhss_hops.py:60 | an ASCII string encodes to one byte per character, each the character's code |
| Text.IsDigitToken | gen_fhss_hops.py:54 | a token passing `isdigit` is non-empty and holds no sign, space or underscore, which `int()` alone would accept |
| Text.DecimalValue | gen_fhss_hops.py:54 | `int()` of `n` digits is below `10^n`, and at least `10^(n-1)` without a leading zero |
| Text.Utf8Append | gen_fhss_hops.py:60 | the UTF-8 encoding of the f-string is the concatenation of the encodings of its parts |
| Seed.ComputeSeed | gen_fhss_hops.py:72-75 | the seed fits in 32 bits |
| Seed.SeedArithmetic | gen_fhss_hops.py:72-75 | the seed equals `uid[2]*2^24 + uid[3]*2^16 + uid[4]*2^8 + (uid[5] xor 4)`, with the XOR written as flipping bit 2 |
| Seed.SeedIgnoresPrefix | gen_fhss_hops.py:72-75 | UIDs that agree on bytes 2..5 give the same seed; bytes 0 and 1 never matter |
| Seed.SeedInjectiveOnTail | gen_fhss_hops.py:72-75 | equal seeds imply equal bytes 2..5, so no other information is lost |
| Seed.SeedTailInverts | gen_fhss_hops.py:72-75 | reading the seed's base-256 digits from the top, and flipping bit 2 of the lowest, gives back `uid[2..5]`: the seed is invertible on the bytes it uses |
| Seed.DefaultPhraseSeed | gen_fhss_hops.py:72-75 | UID 00 00 2A 0D 09 08 gives seed 0x2A0D090C |
| Bits.ShiftLeft | gen_fhss_hops.py:72-74 | `x << k` has its low `k` bits clear, and shifting it right by `k` gives `x` back |
| Bits.Or | gen_fhss_hops.py:72-75 | `a \| b` is at least each operand and at most their sum |
| Bits.Xor | gen_fhss_hops.py:75 | `a ^ b` is at most `a + b`, and `a ^ a` is 0 |
| Bits.And | gen_fhss_hops.py:75 | `a & b` is at most each operand, and `a & a` is `a` |
| Bits.OrLowBits | gen_fhss_hops.py:72-75 | OR-ing a value below `2^k` into a multiple of `2^k` is addition |
| Bits.OrScaled | gen_fhss_hops.py:72-75 | shifting both operands left by `k` shifts their OR left by `k` |
| Bits.AndLowMask | gen_fhss_hops.py:75 | `x & (2^k - 1)` is `x mod 2^k` |
| Bits.XorFour | gen_fhss_hops.py:75 | `b ^ 4` adds 4 when bit 2 of `b` is clear and subtracts 4 when it is set |
| Lcg.Seeded | gen_fhss_hops.py:89 | the stored state is below 2^32 and congruent to the seed modulo 2^32, and a seed already below 2^32 is stored unchanged |
| Lcg.SeedIsMasked | gen_fhss_hops.py:89 | for a non-negative seed, the stored state is exactly `seed & 0xFFFFFFFF` |
| Lcg.Rand | gen_fhss_hops.py:98-99 | `rand()` advances the state by one step and returns the new state, which is below 2^31 |
| Lcg.Next | gen_fhss_hops.py:98 | a step leaves the state below 2^31 |
| Lcg.NextIgnoresTopBit | gen_fhss_hops.py:89-98 | a step depends only on the state's low 31 bits, so the top bit of a 32-bit seed is lost at the first draw |
| Lcg.Advance | gen_fhss_hops.py:98-99 | after one or more draws, or from a state already below 2^31, the state is below 2^31 |
| Lcg.StepIsMasked | gen_fhss_hops.py:98 | one step is exactly `(1103515245*state + 12345) & 0x7FFFFFFF` |
| Lcg.JumpAhead | gen_fhss_hops.py:98-99 | `n` steps equal the closed form `(a^n*s + c*(1 + a + ... + a^(n-1))) mod 2^31` |
| Lcg.AdvanceAdd | gen_fhss_hops.py:98-99 | drawing `m` times and then `n` times is drawing `m+n` times |
| Lcg.GoldenFromZero | gen_fhss_hops.py:89-99 | from seed 0 the first three draws are 12345, 1406932606 and 654583775 |
| Lcg.GoldenFromDefaultSeed | gen_fhss_hops.py:89-99 | from the default phrase's seed 0x2A0D090C the first two draws are 1805038165 and 1010697322 |
| Lcg.NegativeSeed | gen_fhss_hops.py:89 | a negative seed keeps its two's-complement low 32 bits: seed -1 stores 0xFFFFFFFF |
| Lcg.RandRange | gen_fhss_hops.py:101-111 | `rand_range(m)` advances the state exactly once; the result differs from the new state by a multiple of `m`; for `m > 0` it is in `[0, m)`, and for `m < 0` it is in `(m, 0]`, as Python's `%` gives |
| Arith.PyMod | gen_fhss_hops.py:111 | Python's remainder takes the divisor's sign and magnitude bound |
| Arith.PyModCongruent | gen_fhss_hops.py:111 | Python's remainder differs from the dividend by a multiple of the divisor |
| Domains.Lookup | gen_fhss_hops.py:14-39 | exactly FCC915, AU915, EU868 and IN866 are known, and each carries its listed start, stop, channel count and sync frequency |
| Domains.DomainsWellFormed | gen_fhss_hops.py:14-39 | every domain has 4 to 40 channels, and its sync frequency lies strictly inside its band |
| Fhss.NewGenerator | gen_fhss_hops.py:118-128 | the channel count is stored as given and the sync channel is `freq_count // 2`, so it lies in `[0, freq_count)`; the generator is seeded modulo 2^32 |
| Fhss.InitialChannel | gen_fhss_hops.py:141-146 | each allocated entry is a channel index; for a sync channel in `(0, freq_count)`, it is the sync channel exactly at block starts and channel 0 exactly at the sync channel's offset; at every other offset it is the offset `i % freq_count` itself, in full and trailing blocks alike |
| Fhss.InitialAllocation | gen_fhss_hops.py:140-146 | the allocated table has 256 entries, the sync channel at every block start, and only channel indices |
| Fhss.AllocateChannels | gen_fhss_hops.py:137-146 | the allocation loop fills a fresh array with exactly the allocated table |
| Fhss.ShuffleStep | gen_fhss_hops.py:150-155 | one iteration leaves the table unchanged at a block start and when the target is at or past 256; otherwise it exchanges entry `i` with entry `block_start + rand_range(freq_count-1) + 1` and changes nothing else; it keeps the multiset and draws exactly when `i` is not a block start |
| Fhss.ShuffleFrom | gen_fhss_hops.py:149-155 | the loop from any position to the end keeps the table's length and multiset of channels |
| Fhss.Swap | gen_fhss_hops.py:155 | the tuple assignment exchanges the two entries, leaves every other entry alone and keeps the multiset |
| Fhss.ShuffleBlocks | gen_fhss_hops.py:149-155 | the in-place loop over all 256 positions computes the reference shuffle `ShuffleFrom` and leaves the generator one draw on per non-start position |
| Fhss.ShuffleAt | gen_fhss_hops.py:150-155 | the in-place iteration computes `ShuffleStep` and draws once exactly at non-start positions |
| Fhss.SwapTarget | gen_fhss_hops.py:150-153 | for a non-start `i` and a draw in `[0, freq_count-1)`, the target lies in `i`'s block, is not its start, and sits at offset `draw + 1` |
| Fhss.SwapKeepsBlocks | gen_fhss_hops.py:155 | swapping two positions of one block leaves every block's multiset of channels unchanged |
| Fhss.StepKeepsBlocks | gen_fhss_hops.py:149-155 | one loop iteration leaves every block's multiset of channels unchanged, whether it swaps or not |
| Fhss.StepKeepsStarts | gen_fhss_hops.py:149-155 | one loop iteration never changes the entry at a block start |
| Fhss.StepKeepsChannels | gen_fhss_hops.py:149-155 | one loop iteration keeps every entry a channel index in `[0, freq_count)` |
| Fhss.ShuffleKeepsBlocks | gen_fhss_hops.py:149-155 | the loop from any position `i` to the end keeps every block's multiset of channels |
| Fhss.ShuffleKeepsStarts | gen_fhss_hops.py:149-155 | the loop from any position `i` to the end keeps every block-start entry |
| Fhss.ShuffleKeepsChannels | gen_fhss_hops.py:149-155 | the loop from any position `i` to the end keeps every entry a channel index |
| Fhss.ShuffleDraws | gen_fhss_hops.py:149-152 | the loop from `i` advances the generator exactly once per non-start position at or after `i` |
| Fhss.ShuffleFollowsDraws | gen_fhss_hops.py:149-152 | the generator state the loop leaves behind depends only on the start state and the block size, never on the table |
| Fhss.DrawsAdvance | gen_fhss_hops.py:149-152 | skipping block starts and drawing at every other position from `i` on is `Advance` by the number of non-start positions from `i` on |
| Fhss.NonStartsCount | gen_fhss_hops.py:149-152 | the number of non-start positions below `n` (the number of draws) is `n - ceil(n / freq_count)` |
| Fhss.InitialBlock | gen_fhss_hops.py:140-146 | each full block of the allocation is `0..freq_count-1` with channel 0 and the sync channel exchanged, so it is a permutation of the channel indices |
| Fhss.MultisetOfBlocks | gen_fhss_hops.py:149-155 | two tables whose blocks match as multisets hold the same channels overall |
| Fhss.ShuffledTable | gen_fhss_hops.py:137-157 | the shuffled table has 256 entries, all channel indices, the sync channel at every block start, and the allocation's multiset of channels; every full block is a permutation of `0..freq_count-1`; the generator advanced once per non-start position |
| Fhss.BuildSequence | gen_fhss_hops.py:130-157 | the array loops compute the reference shuffle; the table has 256 entries in `[0, freq_count)` with the sync channel at every block start, keeps the allocation's channels, and has every full block a permutation; the generator is left `256 - ceil(256/freq_count)` draws on |
| Pipeline.Derive | gen_fhss_hops.py:177-188 | unknown domains are rejected; otherwise the reported UID, seed and table come from the chain above, and the channel reported at index `freq_count` is `freq_count // 2` |
| Pipeline.DeterministicRuns | gen_fhss_hops.py:177-183 | two runs on the same phrase and domain report identical results |

## Left out

- Command line, logging and printing (`parse_args`, the log lines and the print loop of `main`, lines 159-198) are I/O. `Pipeline.Derive` returns what `main` reports instead of printing it. An unknown domain, which the argument parser rejects, comes back as `None`.
- MD5 (line 60) is a foreign library. It is a parameter of type `seq<Byte> -> Digest` returning 16 bytes, and nothing is assumed about its values.
- Uid.TokenValue: `str.isdigit` also accepts non-ASCII Unicode digits. Some of these make `int()` raise the `ValueError` caught at line 58, and others parse. The model accepts only ASCII `0`-`9` and treats every other token as invalid. For ASCII tokens, the `ValueError` path is taken exactly when a token has more than 4300 digits, leading zeros included. This is CPython's default limit since 3.11. An interpreter without that limit (before 3.11), or one configured with another limit (`PYTHONINTMAXSTRDIGITS`, `sys.set_int_max_str_digits`), is not modelled.
- Text.Utf8: Python strings may hold lone surrogates, and `.encode()` raises on them (outside the `try`). Dafny characters are Unicode scalar values, so this case does not arise in the model.
- Fhss.BuildSequence: requires `freq_count >= 1`. A count of 0 raises `ZeroDivisionError` in the source. Negative counts never come from `DOMAINS`, and with Python's floor division and negative indexing they would need a separate model.
- Lcg.RandRange: requires `max_val != 0`, because `rand_range(0)` raises `ZeroDivisionError`.
- Seed.ComputeSeed: requires at least six bytes, because a shorter `bytes` raises `IndexError` at the first missing index among `uid[2..5]`, read left to right at lines 72-75.
- Bits: the bitwise operators are defined on non-negative integers only. Every operand in the source is non-negative. `Lcg.Seeded` models `&` with Euclidean `%`, which agrees with Python's two's-complement `&` for negative seeds too.
- Lcg.SeedIsMasked: states the literal `&` form only for non-negative seeds, for the reason above. `Lcg.Seeded` covers negative seeds through its congruence clause.
- The domain frequencies (`freq_start`, `freq_stop`, `sync_center_freq`) are kept as data, but the algorithm never reads them.
- The mutable generator object is modelled as a value. `BuildSequence` returns the generator state it leaves behind instead of updating `self.rng`.

=== FILE: arith.dfy ===
/**
  Integer facts shared by the generator and the sequence builder, and the
  Python remainder operator, which floors where Dafny's `%` is Euclidean.
 */
module Arith {

  /** Python's `a % m`: the remainder takes the sign of the divisor. */
  function PyMod(a: int, m: int): (r: int)
    requires m != 0
    ensures m > 0 ==> 0 <= r < m
    ensures m < 0 ==> m < r <= 0
  {
    if m > 0 || a % m == 0 then a % m else a % m + m
  }

  /** Python's remainder differs from `a` by a multiple of the divisor. */
  lemma PyModCongruent(a: int, m: int)
    requires m != 0
    ensures (a - PyMod(a, m)) % Abs(m) == 0
  {
    var n := Abs(m);
    var k := if m > 0 then a / m else -(a / m);
    assert a - a % m == k * n;
    if PyMod(a, m) == a % m {
      DivModUnique(k, 0, n);
    } else {
      assert a - PyMod(a, m) == (k + 1) * n;
      DivModUnique(k + 1, 0, n);
    }
  }

  function Abs(x: int): (r: nat)
    ensures r == x || r == -x
  {
    if x < 0 then -x else x
  }

  /** Doubling a factor doubles the product. */
  lemma MulDouble(a: int, b: int)
    ensures a * (2 * b) == 2 * (a * b)
  {
  }

  /** `x` splits into quotient and remainder. */
  lemma DivMod(x: int, n: int)
    requires n > 0
    ensures x == (x / n) * n + x % n
  {
  }

  /** Division and remainder are determined by any decomposition `q * n + r` with `0 <= r < n`. */
  lemma DivModUnique(q: int, r: int, n: int)
    requires n > 0 && 0 <= r < n
    ensures (q * n + r) / n == q
    ensures (q * n + r) % n == r
  {
    var x := q * n + r;
    var d := x / n - q;
    assert d * n == r - x % n;
  }

  /** The remainder modulo `2p` is the remainder of `x / 2` modulo `p`, doubled, plus the low bit. */
  lemma ModDouble(x: int, p: int)
    requires p > 0
    ensures x % (2 * p) == 2 * ((x / 2) % p) + x % 2
  {
    var q, r := (x / 2) / p, (x / 2) % p;
    assert x / 2 == q * p + r;
    assert x == q * (2 * p) + (2 * r + x % 2);
    DivModUnique(q, 2 * r + x % 2, 2 * p);
  }

  /** Adding a multiple of the modulus does not change the remainder. */
  lemma ModAddMultiple(k: int, w: int, m: int)
    requires m > 0
    ensures (k * m + w) % m == w % m
  {
    DivModUnique(k + w / m, w % m, m);
    assert k * m + w == (k + w / m) * m + w % m;
  }

  /** Reducing a factor before multiplying does not change the remainder. */
  lemma ModMulReduce(x: int, y: int, z: int, m: int)
    requires m > 0
    ensures (x * (y % m) + z) % m == (x * y + z) % m
  {
    var q := y / m;
    assert y == q * m + y % m;
    assert x * y + z == (x * q) * m + (x * (y % m) + z);
    ModAddMultiple(x * q, x * (y % m) + z, m);
  }

  /** The start of the block of size `n` that holds position `p` is `p - p % n`. */
  lemma BlockOf(p: int, b: int, n: int)
    requires n > 0 && b % n == 0
    ensures (b <= p < b + n) <==> p - p % n == b
  {
    if b <= p < b + n {
      DivModUnique(b / n, p - b, n);
      assert p == (b / n) * n + (p - b);
    }
  }
}

=== FILE: bits.dfy ===
/**
  Python's bitwise operators on non-negative integers, defined bit by bit
  on unbounded numbers as Python defines them, with the identities the seed
  and the generator rely on.
 */
module Bits {
  import Arith

  function Pow2(k: nat): (p: nat)
    ensures p >= 1
  {
    if k == 0 then 1 else 2 * Pow2(k - 1)
  }

  /** The powers of two the seed and the generator use. */
  lemma Pow2Table()
    ensures Pow2(8) == 0x100 && Pow2(16) == 0x1_0000 && Pow2(24) == 0x100_0000
    ensures Pow2(31) == 0x8000_0000 && Pow2(32) == 0x1_0000_0000
  {
    assert Pow2(4) == 0x10;
    assert Pow2(8) == 0x100;
    assert Pow2(12) == 0x1000;
    assert Pow2(16) == 0x1_0000;
    assert Pow2(20) == 0x10_0000;
    assert Pow2(24) == 0x100_0000;
    assert Pow2(28) == 0x1000_0000;
  }

  /** Python's `x << k`: `k` zero bits appended below `x`, so `>> k` gives `x` back. */
  function ShiftLeft(x: nat, k: nat): (r: nat)
    ensures r / Pow2(k) == x && r % Pow2(k) == 0
  {
    Arith.DivModUnique(x, 0, Pow2(k));
    x * Pow2(k)
  }

  /** Python's `a | b`. */
  function Or(a: nat, b: nat): (r: nat)
    ensures a <= r && b <= r && r <= a + b
    decreases a + b
  {
    if a == 0 then b
    else if b == 0 then a
    else 2 * Or(a / 2, b / 2) + (if a % 2 == 1 || b % 2 == 1 then 1 else 0)
  }

  /** Python's `a ^ b`. */
  function Xor(a: nat, b: nat): (r: nat)
    ensures r <= a + b
    ensures a == b ==> r == 0
    decreases a + b
  {
    if a == 0 then b
    else if b == 0 then a
    else 2 * Xor(a / 2, b / 2) + (a % 2 + b % 2) % 2
  }

  /** Python's `a & b`. */
  function And(a: nat, b: nat): (r: nat)
    ensures r <= a && r <= b
    ensures a == b ==> r == a
    decreases a + b
  {
    if a == 0 || b == 0 then 0
    else 2 * And(a / 2, b / 2) + (if a % 2 == 1 && b % 2 == 1 then 1 else 0)
  }

  /** OR-ing a number below `2^k` into a multiple of `2^k` is addition. */
  lemma {:induction false} OrLowBits(x: nat, y: nat, k: nat)
    requires y < Pow2(k)
    ensures Or(x * Pow2(k), y) == x * Pow2(k) + y
    decreases k
  {
    if k > 0 && x != 0 && y != 0 {
      var h := x * Pow2(k - 1);
      assert x * Pow2(k) == 2 * h;
      OrLowBits(x, y / 2, k - 1);
      assert Or(2 * h, y) == 2 * Or(h, y / 2) + y % 2;
    }
  }

  /** Shifting both operands left by `k` shifts their OR left by `k`. */
  lemma {:induction false} OrScaled(x: nat, y: nat, k: nat)
    ensures Or(x * Pow2(k), y * Pow2(k)) == Or(x, y) * Pow2(k)
    decreases k
  {
    if k > 0 {
      var p := Pow2(k - 1);
      Arith.MulDouble(x, p);
      Arith.MulDouble(y, p);
      Arith.MulDouble(Or(x, y), p);
      OrEven(x * p, y * p);
      OrScaled(x, y, k - 1);
    }
  }

  /** Doubling both operands doubles their OR. */
  lemma OrEven(a: nat, b: nat)
    ensures Or(2 * a, 2 * b) == 2 * Or(a, b)
  {
    if a != 0 && b != 0 {
      assert (2 * a) / 2 == a && (2 * a) % 2 == 0;
      assert (2 * b) / 2 == b && (2 * b) % 2 == 0;
    }
  }

  /** `a & b` never exceeds `b`. */
  lemma {:induction false} AndAtMost(a: nat, b: nat)
    ensures And(a, b) <= b
    decreases a + b
  {
    if a != 0 && b != 0 {
      AndAtMost(a / 2, b / 2);
    }
  }

  /** Masking with `2^k - 1` keeps the low `k` bits: `x & (2^k - 1) == x % 2^k`. */
  lemma {:induction false} AndLowMask(x: nat, k: nat)
    ensures And(x, Pow2(k) - 1) == x % Pow2(k)
    decreases k
  {
    if k != 0 && x != 0 {
      AndLowMask(x / 2, k - 1);
      AndMaskStep(x, k);
    }
  }

  /** One bit of `AndLowMask`: if `x / 2` masked by `2^(k-1) - 1` is `(x / 2) % 2^(k-1)`,
      then `x` masked by `2^k - 1` is `x % 2^k`. */
  lemma AndMaskStep(x: nat, k: nat)
    requires x != 0 && k >= 1
    requires And(x / 2, Pow2(k - 1) - 1) == (x / 2) % Pow2(k - 1)
    ensures And(x, Pow2(k) - 1) == x % Pow2(k)
  {
    var p := Pow2(k - 1);
    assert Pow2(k) == 2 * p;
    AndOddMask(x, p);
    Arith.ModDouble(x, p);
  }

  /** ANDing with the odd mask `2p - 1` keeps the lowest bit and ANDs the rest with `p - 1`. */
  lemma AndOddMask(x: nat, p: nat)
    requires x != 0 && p >= 1
    ensures And(x, 2 * p - 1) == 2 * And(x / 2, p - 1) + x % 2
  {
    assert (2 * p - 1) / 2 == p - 1 && (2 * p - 1) % 2 == 1;
  }

  /** A number below `2^k` passes the `2^k - 1` mask unchanged. */
  lemma MaskBelow(x: nat, k: nat)
    requires x < Pow2(k)
    ensures And(x, Pow2(k) - 1) == x
  {
    AndLowMask(x, k);
    Arith.DivModUnique(0, x, Pow2(k));
  }

  /** A 32-bit number passes the source's `& 0xFFFFFFFF` mask unchanged. */
  lemma Mask32Below(x: nat)
    requires x < 0x1_0000_0000
    ensures And(x, 0xFFFF_FFFF) == x
  {
    Pow2Table();
    MaskBelow(x, 32);
  }

  /** XOR with 4 flips bit 2 and leaves every other bit alone. */
  lemma XorFour(b: nat)
    ensures Xor(b, 4) == if (b / 4) % 2 == 0 then b + 4 else b - 4
  {
    if b / 4 != 0 {
      assert Xor(b / 4, 1) == 2 * (b / 8) + 1 - (b / 4) % 2;
    }
    if b / 2 != 0 {
      assert Xor(b / 2, 2) == 2 * Xor(b / 4, 1) + (b / 2) % 2;
    }
  }
}

=== FILE: bytes.dfy ===
/** Octets, as Python's `bytes` holds them. */
module Bytes {

  type Byte = x: int | 0 <= x < 256

  /** `n` zero bytes, the padding Python's `[0] * n` builds. */
  function Zeros(n: nat): (z: seq<Byte>)
    ensures |z| == n
    ensures forall k :: 0 <= k < n ==> z[k] == 0
  {
    seq(n, _ => 0)
  }
}

=== FILE: domains.dfy ===
/**
  `DOMAINS`: the regulatory-domain parameters. Only `freqCount` feeds the
  sequence builder; the frequencies are carried as data.
 */
module Domains {
  import opened Wrappers

  datatype DomainParams = DomainParams(freqStart: nat, freqStop: nat, freqCount: nat, syncCenterFreq: nat)

  const DOMAINS: map<string, DomainParams> := map[
    "FCC915" := DomainParams(903_500_000, 926_900_000, 40, 915_000_000),
    "AU915" := DomainParams(915_500_000, 926_900_000, 20, 921_000_000),
    "EU868" := DomainParams(865_275_000, 869_575_000, 13, 868_000_000),
    "IN866" := DomainParams(865_375_000, 866_950_000, 4, 866_000_000)
  ]

  /** `DOMAINS[name]`, with `None` for a name outside the table (the argument
      parser rejects such a name before anything is derived). */
  function Lookup(name: string): (r: Option<DomainParams>)
    ensures r.Some? <==> name in {"FCC915", "AU915", "EU868", "IN866"}
    ensures name == "FCC915" ==> r == Some(DomainParams(903_500_000, 926_900_000, 40, 915_000_000))
    ensures name == "AU915" ==> r == Some(DomainParams(915_500_000, 926_900_000, 20, 921_000_000))
    ensures name == "EU868" ==> r == Some(DomainParams(865_275_000, 869_575_000, 13, 868_000_000))
    ensures name == "IN866" ==> r == Some(DomainParams(865_375_000, 866_950_000, 4, 866_000_000))
    ensures r.Some? ==> r.value.freqCount in {40, 20, 13, 4}
  {
    if name in DOMAINS then Some(DOMAINS[name]) else None
  }

  /** Every domain has between 4 and 40 channels, inside the 256-entry table,
      and a sync frequency inside its band. */
  lemma DomainsWellFormed()
    ensures forall name :: name in DOMAINS ==>
      && 4 <= DOMAINS[name].freqCount <= 40
      && DOMAINS[name].freqStart < DOMAINS[name].syncCenterFreq < DOMAINS[name].freqStop
  {
  }
}

=== FILE: fhss.dfy ===
/**
  `FHSSGenerator`: the 256-entry hop table for a channel count and a seed.
  Positions are cut into blocks of `freqCount`; every block starts on the
  sync channel, then a sequential, generator-driven shuffle swaps each
  non-start position with another non-start position of its own block.
 */
module Fhss {
  import opened Lcg
  import Arith

  /** `FHSS_SEQUENCE_LEN`. */
  const FHSS_SEQUENCE_LEN: nat := 256

  /** The generator's fields: channel count, sync channel and its own LCG. */
  datatype Generator = Generator(freqCount: int, syncChannel: int, rng: Rng)
  {
    /** What the constructor establishes and `build_sequence` relies on:
        a positive channel count (zero would divide by zero) and the sync
        channel at its middle. */
    predicate Valid()
    {
      freqCount >= 1 && syncChannel == freqCount / 2
    }
  }

  /** `FHSSGenerator(freq_count, seed)`. Python's `freq_count // 2` floors,
      as Dafny's `/` does for the divisor 2. */
  function NewGenerator(freqCount: int, seed: int): (gen: Generator)
    requires freqCount >= 1
    ensures gen.freqCount == freqCount && gen.syncChannel == freqCount / 2
    ensures gen.Valid()
    ensures 0 <= gen.syncChannel < freqCount && gen.syncChannel * 2 <= freqCount < gen.syncChannel * 2 + 2
    ensures gen.rng.state < SEED_MODULUS && (seed - gen.rng.state) % SEED_MODULUS == 0
  {
    Generator(freqCount, freqCount / 2, Seeded(seed))
  }

  // ---------------------------------------------------------------------
  // Initial allocation

  /** The channel first written at position `p`: the sync channel at a block
      start, channel 0 where the sync channel would have been, else `p % fc`. */
  function InitialChannel(p: nat, fc: int, sync: int): (c: int)
    requires fc >= 1
    ensures 0 <= sync < fc ==> 0 <= c < fc
    ensures 0 < sync < fc ==> (c == sync <==> p % fc == 0) && (c == 0 <==> p % fc == sync)
    ensures p % fc != 0 && p % fc != sync ==> c == p % fc
  {
    if p % fc == 0 then sync else if p % fc == sync then 0 else p % fc
  }

  /** The table after the allocation loop. */
  function InitialAllocation(fc: int, sync: int): (s: seq<int>)
    requires fc >= 1
    ensures |s| == FHSS_SEQUENCE_LEN
    ensures forall p :: 0 <= p < |s| && p % fc == 0 ==> s[p] == sync
    ensures 0 <= sync < fc ==> forall p :: 0 <= p < |s| ==> 0 <= s[p] < fc
  {
    seq(FHSS_SEQUENCE_LEN, p requires 0 <= p < FHSS_SEQUENCE_LEN => InitialChannel(p, fc, sync))
  }

  /** `0, 1, ..., n - 1`. */
  function Range(n: nat): (s: seq<int>)
    ensures |s| == n
  {
    seq(n, k requires 0 <= k < n => k)
  }

  // ---------------------------------------------------------------------
  // Blocks

  function Min(a: int, b: int): int
  {
    if a < b then a else b
  }

  /** The block that begins at `start`, cut short at the end of the table. */
  function Chunk(s: seq<int>, fc: int, start: nat): seq<int>
    requires fc >= 1 && start <= |s|
  {
    s[start..Min(start + fc, |s|)]
  }

  /** Every block of `a` holds the same channels, with the same
      multiplicities, as the block of `b` at the same place. */
  ghost predicate SameBlocks(a: seq<int>, b: seq<int>, fc: int)
    requires fc >= 1
  {
    |a| == |b| &&
    forall start: nat :: start < |a| && start % fc == 0 ==>
      multiset(Chunk(a, fc, start)) == multiset(Chunk(b, fc, start))
  }

  /** Every entry is a channel index in `[0, fc)`. */
  ghost predicate AllChannels(s: seq<int>, fc: int)
  {
    forall p :: 0 <= p < |s| ==> 0 <= s[p] < fc
  }

  /** The entries at block starts agree. */
  ghost predicate SameStarts(a: seq<int>, b: seq<int>, fc: int)
    requires fc >= 1
  {
    |a| == |b| && forall p :: 0 <= p < |a| && p % fc == 0 ==> a[p] == b[p]
  }

  function Swap(s: seq<int>, i: nat, j: nat): (r: seq<int>)
    requires i < |s| && j < |s|
    ensures |r| == |s| && r[i] == s[j] && r[j] == s[i]
    ensures forall p :: 0 <= p < |s| && p != i && p != j ==> r[p] == s[p]
    ensures multiset(r) == multiset(s)
  {
    s[i := s[j]][j := s[i]]
  }

  // ---------------------------------------------------------------------
  // The shuffle, as a reference definition

  /** `block_start + rand_offset`, where `rand_offset = rand_range(fc - 1) + 1`.
      The target is a non-start position of the block that holds `i`. */
  function SwapTarget(i: nat, fc: int, draw: int): (j: nat)
    requires fc >= 1 && i % fc != 0 && 0 <= draw < fc - 1
    ensures j - j % fc == i - i % fc
    ensures j % fc == draw + 1
    ensures i - i % fc < j < i - i % fc + fc
  {
    Arith.DivModUnique(i / fc, draw + 1, fc);
    (i / fc) * fc + draw + 1
  }

  /** One iteration of the shuffle loop at position `i`. */
  function ShuffleStep(s: seq<int>, fc: int, g: Rng, i: nat): (r: (seq<int>, Rng))
    requires fc >= 1 && |s| == FHSS_SEQUENCE_LEN && i < FHSS_SEQUENCE_LEN
    ensures |r.0| == FHSS_SEQUENCE_LEN
    ensures multiset(r.0) == multiset(s)
    ensures r.1 == if i % fc == 0 then g else Next(g)
    ensures i % fc == 0 ==> r.0 == s
    ensures i % fc != 0 ==>
      var j := SwapTarget(i, fc, Arith.PyMod(Next(g).state, fc - 1));
      && (j >= FHSS_SEQUENCE_LEN ==> r.0 == s)
      && (j < FHSS_SEQUENCE_LEN ==> r.0[i] == s[j] && r.0[j] == s[i])
      && (j < FHSS_SEQUENCE_LEN ==> forall p :: 0 <= p < |s| && p != i && p != j ==> r.0[p] == s[p])
  {
    if i % fc == 0 then (s, g)
    else
      var (g', draw) := RandRange(g, fc - 1);
      var j := SwapTarget(i, fc, draw);
      (if j < FHSS_SEQUENCE_LEN then Swap(s, i, j) else s, g')
  }

  /** The shuffle loop from position `i` to the end, with the state it leaves the generator in. */
  function ShuffleFrom(s: seq<int>, fc: int, g: Rng, i: nat): (r: (seq<int>, Rng))
    requires fc >= 1 && |s| == FHSS_SEQUENCE_LEN && i <= FHSS_SEQUENCE_LEN
    ensures |r.0| == FHSS_SEQUENCE_LEN
    ensures multiset(r.0) == multiset(s)
    decreases FHSS_SEQUENCE_LEN - i
  {
    if i == FHSS_SEQUENCE_LEN then (s, g)
    else
      var (s', g') := ShuffleStep(s, fc, g, i);
      ShuffleFrom(s', fc, g', i + 1)
  }

  /** The number of positions below `n` that are not block starts, one draw each. */
  function NonStarts(n: nat, fc: int): nat
    requires fc >= 1
  {
    if n == 0 then 0 else NonStarts(n - 1, fc) + (if (n - 1) % fc != 0 then 1 else 0)
  }

  // ---------------------------------------------------------------------
  // Lemmas

  /** A swap of two positions of one block leaves every block's contents unchanged. */
  lemma SwapKeepsBlocks(s: seq<int>, i: nat, j: nat, fc: int)
    requires fc >= 1 && i < |s| && j < |s|
    requires i - i % fc == j - j % fc
    ensures SameBlocks(Swap(s, i, j), s, fc)
  {
    var r := Swap(s, i, j);
    var home := i - i % fc;
    forall start: nat | start < |r| && start % fc == 0
      ensures multiset(Chunk(r, fc, start)) == multiset(Chunk(s, fc, start))
    {
      Arith.BlockOf(i, start, fc);
      Arith.BlockOf(j, start, fc);
      var end := Min(start + fc, |s|);
      if start == home {
        var c := Chunk(s, fc, start);
        assert Chunk(r, fc, start) == Swap(c, i - start, j - start);
      } else {
        assert Chunk(r, fc, start) == Chunk(s, fc, start);
      }
    }
  }

  /** Block-wise equal contents is transitive. */
  lemma SameBlocksTrans(a: seq<int>, b: seq<int>, c: seq<int>, fc: int)
    requires fc >= 1 && SameBlocks(a, b, fc) && SameBlocks(b, c, fc)
    ensures SameBlocks(a, c, fc)
  {
  }

  /** A swap of two non-start positions leaves every block start alone. */
  lemma SwapKeepsStarts(s: seq<int>, i: nat, j: nat, fc: int)
    requires fc >= 1 && i < |s| && j < |s| && i % fc != 0 && j % fc != 0
    ensures SameStarts(Swap(s, i, j), s, fc)
  {
  }

  /** A swap moves channels around without creating new ones. */
  lemma SwapKeepsChannels(s: seq<int>, i: nat, j: nat, fc: int)
    requires i < |s| && j < |s| && AllChannels(s, fc)
    ensures AllChannels(Swap(s, i, j), fc)
  {
  }

  /** One shuffle step keeps every block's contents. */
  lemma StepKeepsBlocks(s: seq<int>, fc: int, g: Rng, i: nat)
    requires fc >= 1 && |s| == FHSS_SEQUENCE_LEN && i < FHSS_SEQUENCE_LEN
    ensures SameBlocks(ShuffleStep(s, fc, g, i).0, s, fc)
  {
    var r := ShuffleStep(s, fc, g, i).0;
    var j := FHSS_SEQUENCE_LEN;
    if i % fc != 0 {
      j := SwapTarget(i, fc, RandRange(g, fc - 1).1);
    }
    if j < FHSS_SEQUENCE_LEN {
      assert r == Swap(s, i, j);
      SwapKeepsBlocks(s, i, j, fc);
    } else {
      assert r == s;
    }
  }

  /** One shuffle step never writes a block start. */
  lemma StepKeepsStarts(s: seq<int>, fc: int, g: Rng, i: nat)
    requires fc >= 1 && |s| == FHSS_SEQUENCE_LEN && i < FHSS_SEQUENCE_LEN
    ensures SameStarts(ShuffleStep(s, fc, g, i).0, s, fc)
  {
    if i % fc != 0 {
      var (g', draw) := RandRange(g, fc - 1);
      var j := SwapTarget(i, fc, draw);
      if j < FHSS_SEQUENCE_LEN {
        SwapKeepsStarts(s, i, j, fc);
      }
    }
  }

  /** One shuffle step keeps every entry a channel index. */
  lemma StepKeepsChannels(s: seq<int>, fc: int, g: Rng, i: nat)
    requires fc >= 1 && |s| == FHSS_SEQUENCE_LEN && i < FHSS_SEQUENCE_LEN && AllChannels(s, fc)
    ensures AllChannels(ShuffleStep(s, fc, g, i).0, fc)
  {
    if i % fc != 0 {
      var (g', draw) := RandRange(g, fc - 1);
      var j := SwapTarget(i, fc, draw);
      if j < FHSS_SEQUENCE_LEN {
        SwapKeepsChannels(s, i, j, fc);
      }
    }
  }

  /** The rest of the shuffle from `i` keeps every block's contents. */
  lemma {:induction false} ShuffleKeepsBlocks(s: seq<int>, fc: int, g: Rng, i: nat)
    requires fc >= 1 && |s| == FHSS_SEQUENCE_LEN && i <= FHSS_SEQUENCE_LEN
    ensures SameBlocks(ShuffleFrom(s, fc, g, i).0, s, fc)
    decreases FHSS_SEQUENCE_LEN - i
  {
    if i < FHSS_SEQUENCE_LEN {
      var (s', g') := ShuffleStep(s, fc, g, i);
      StepKeepsBlocks(s, fc, g, i);
      ShuffleKeepsBlocks(s', fc, g', i + 1);
      SameBlocksTrans(ShuffleFrom(s', fc, g', i + 1).0, s', s, fc);
    }
  }

  /** The rest of the shuffle from `i` never writes a block start. */
  lemma {:induction false} ShuffleKeepsStarts(s: seq<int>, fc: int, g: Rng, i: nat)
    requires fc >= 1 && |s| == FHSS_SEQUENCE_LEN && i <= FHSS_SEQUENCE_LEN
    ensures SameStarts(ShuffleFrom(s, fc, g, i).0, s, fc)
    decreases FHSS_SEQUENCE_LEN - i
  {
    if i < FHSS_SEQUENCE_LEN {
      var (s', g') := ShuffleStep(s, fc, g, i);
      StepKeepsStarts(s, fc, g, i);
      ShuffleKeepsStarts(s', fc, g', i + 1);
    }
  }

  /** The rest of the shuffle from `i` keeps every entry a channel index. */
  lemma {:induction false} ShuffleKeepsChannels(s: seq<int>, fc: int, g: Rng, i: nat)
    requires fc >= 1 && |s| == FHSS_SEQUENCE_LEN && i <= FHSS_SEQUENCE_LEN && AllChannels(s, fc)
    ensures AllChannels(ShuffleFrom(s, fc, g, i).0, fc)
    decreases FHSS_SEQUENCE_LEN - i
  {
    if i < FHSS_SEQUENCE_LEN {
      var (s', g') := ShuffleStep(s, fc, g, i);
      StepKeepsChannels(s, fc, g, i);
      ShuffleKeepsChannels(s', fc, g', i + 1);
    }
  }

  /** The rest of the shuffle from `i` draws once per non-start position from `i` on. */
  lemma {:induction false} ShuffleDraws(s: seq<int>, fc: int, g: Rng, i: nat)
    requires fc >= 1 && |s| == FHSS_SEQUENCE_LEN && i <= FHSS_SEQUENCE_LEN
    ensures NonStarts(i, fc) <= NonStarts(FHSS_SEQUENCE_LEN, fc)
    ensures ShuffleFrom(s, fc, g, i).1 == Advance(g, NonStarts(FHSS_SEQUENCE_LEN, fc) - NonStarts(i, fc))
  {
    ShuffleFollowsDraws(s, fc, g, i);
    DrawsAdvance(fc, g, i);
  }

  /** The generator states the shuffle loop passes through, without the table. */
  function DrawsFrom(fc: int, g: Rng, i: nat): Rng
    requires fc >= 1 && i <= FHSS_SEQUENCE_LEN
    decreases FHSS_SEQUENCE_LEN - i
  {
    if i == FHSS_SEQUENCE_LEN then g
    else DrawsFrom(fc, if i % fc == 0 then g else Next(g), i + 1)
  }

  /** The state the shuffle leaves the generator in does not depend on the table. */
  lemma {:induction false} ShuffleFollowsDraws(s: seq<int>, fc: int, g: Rng, i: nat)
    requires fc >= 1 && |s| == FHSS_SEQUENCE_LEN && i <= FHSS_SEQUENCE_LEN
    ensures ShuffleFrom(s, fc, g, i).1 == DrawsFrom(fc, g, i)
    decreases FHSS_SEQUENCE_LEN - i
  {
    if i < FHSS_SEQUENCE_LEN {
      var r := ShuffleStep(s, fc, g, i);
      ShuffleFromUnfold(s, fc, g, i);
      ShuffleFollowsDraws(r.0, fc, r.1, i + 1);
    }
  }

  /** `DrawsFrom` advances the generator once per non-start position from `i` on. */
  lemma {:induction false} DrawsAdvance(fc: int, g: Rng, i: nat)
    requires fc >= 1 && i <= FHSS_SEQUENCE_LEN
    ensures NonStarts(i, fc) <= NonStarts(FHSS_SEQUENCE_LEN, fc)
    ensures DrawsFrom(fc, g, i) == Advance(g, NonStarts(FHSS_SEQUENCE_LEN, fc) - NonStarts(i, fc))
    decreases FHSS_SEQUENCE_LEN - i
  {
    if i < FHSS_SEQUENCE_LEN {
      if i % fc != 0 {
        DrawsAdvance(fc, Next(g), i + 1);
        assert NonStarts(i + 1, fc) == NonStarts(i, fc) + 1;
      } else {
        DrawsAdvance(fc, g, i + 1);
        assert NonStarts(i + 1, fc) == NonStarts(i, fc);
      }
    }
  }

  /** The count of non-start positions below `n` is `n - ceil(n / fc)`. */
  lemma {:induction false} NonStartsCount(n: nat, fc: int)
    requires fc >= 1
    ensures NonStarts(n, fc) == n - (n + fc - 1) / fc
    decreases n
  {
    if n == 0 {
      Arith.DivModUnique(0, fc - 1, fc);
    } else {
      var m := n - 1;
      NonStartsCount(m, fc);
      var q, r := m / fc, m % fc;
      Arith.DivMod(m, fc);
      Arith.DivModUnique(q + 1, r, fc);
      assert m + fc == (q + 1) * fc + r;
      if r == 0 {
        Arith.DivModUnique(q, fc - 1, fc);
        assert m + fc - 1 == q * fc + (fc - 1);
      } else {
        Arith.DivModUnique(q + 1, r - 1, fc);
        assert m + fc - 1 == (q + 1) * fc + (r - 1);
      }
    }
  }

  /** The position `start + o` of a block sits at offset `o` of its block. */
  lemma OffsetInBlock(start: nat, o: nat, fc: int)
    requires fc >= 1 && start % fc == 0 && o < fc
    ensures (start + o) % fc == o
  {
    Arith.DivMod(start, fc);
    Arith.DivModUnique(start / fc, o, fc);
  }

  /** Before the shuffle, every full block is `0 .. fc-1` with channel 0 and the
      sync channel exchanged: a permutation of the channel indices. */
  lemma InitialBlock(fc: int, sync: int, start: nat)
    requires fc >= 1 && sync == fc / 2
    requires start % fc == 0 && start + fc <= FHSS_SEQUENCE_LEN
    ensures Chunk(InitialAllocation(fc, sync), fc, start) == Swap(Range(fc), 0, sync)
    ensures multiset(Chunk(InitialAllocation(fc, sync), fc, start)) == multiset(Range(fc))
  {
    var c := Chunk(InitialAllocation(fc, sync), fc, start);
    forall o | 0 <= o < fc
      ensures c[o] == Swap(Range(fc), 0, sync)[o]
    {
      OffsetInBlock(start, o, fc);
    }
  }

  // ---------------------------------------------------------------------
  // The builder

  /** The allocation loop of `build_sequence`, on a fresh array. */
  method AllocateChannels(fc: int, sync: int) returns (a: array<int>)
    requires fc >= 1
    ensures fresh(a) && a[..] == InitialAllocation(fc, sync)
  {
    a := new int[FHSS_SEQUENCE_LEN];
    var i := 0;
    while i < FHSS_SEQUENCE_LEN
      invariant 0 <= i <= FHSS_SEQUENCE_LEN
      invariant a[..i] == InitialAllocation(fc, sync)[..i]
    {
      if i % fc == 0 {
        a[i] := sync;
      } else if i % fc == sync {
        a[i] := 0;
      } else {
        a[i] := i % fc;
      }
      i := i + 1;
    }
    assert a[..] == a[..FHSS_SEQUENCE_LEN];
  }

  /** One iteration of the shuffle loop, in place: at a non-start position `i`,
      draw an offset and swap `i` with its target if the target is in the table. */
  method ShuffleAt(a: array<int>, fc: int, g: Rng, i: nat) returns (g': Rng)
    requires fc >= 1 && a.Length == FHSS_SEQUENCE_LEN && i < FHSS_SEQUENCE_LEN
    modifies a
    ensures (a[..], g') == ShuffleStep(old(a[..]), fc, g, i)
    ensures g' == if i % fc == 0 then g else Next(g)
  {
    g' := g;
    if i % fc != 0 {
      var blockStart := (i / fc) * fc;
      var (g1, draw) := RandRange(g, fc - 1);
      var randOffset := draw + 1;
      g' := g1;
      var swapIdx := blockStart + randOffset;
      assert swapIdx == SwapTarget(i, fc, randOffset - 1);
      if swapIdx < FHSS_SEQUENCE_LEN {
        a[i], a[swapIdx] := a[swapIdx], a[i];
        assert a[..] == Swap(old(a[..]), i, swapIdx);
      }
    }
  }

  /** `build_sequence()`: the table and the generator state it leaves behind,
      `256 - ceil(256 / freq_count)` draws after the one it started from. */
  method BuildSequence(gen: Generator) returns (hops: seq<int>, rng: Rng)
    requires gen.Valid()
    ensures (hops, rng) == ShuffleFrom(InitialAllocation(gen.freqCount, gen.syncChannel), gen.freqCount, gen.rng, 0)
    ensures |hops| == FHSS_SEQUENCE_LEN
    ensures forall p :: 0 <= p < |hops| ==> 0 <= hops[p] < gen.freqCount
    ensures forall p :: 0 <= p < |hops| && p % gen.freqCount == 0 ==> hops[p] == gen.syncChannel
    ensures multiset(hops) == multiset(InitialAllocation(gen.freqCount, gen.syncChannel))
    ensures forall start: nat :: start % gen.freqCount == 0 && start + gen.freqCount <= |hops| ==>
      multiset(Chunk(hops, gen.freqCount, start)) == multiset(Range(gen.freqCount))
    ensures rng == Advance(gen.rng, NonStarts(FHSS_SEQUENCE_LEN, gen.freqCount))
    ensures NonStarts(FHSS_SEQUENCE_LEN, gen.freqCount) == FHSS_SEQUENCE_LEN - (FHSS_SEQUENCE_LEN + gen.freqCount - 1) / gen.freqCount
  {
    var a := AllocateChannels(gen.freqCount, gen.syncChannel);
    rng := ShuffleBlocks(a, gen.freqCount, gen.rng);
    hops := a[..];
    BuiltTable(gen);
  }

  /** The shuffle loop of `build_sequence`, in place: every non-start position
      is swapped with a drawn position of its own block, one draw each. */
  method ShuffleBlocks(a: array<int>, fc: int, g0: Rng) returns (rng: Rng)
    requires fc >= 1 && a.Length == FHSS_SEQUENCE_LEN
    modifies a
    ensures (a[..], rng) == ShuffleFrom(old(a[..]), fc, g0, 0)
    ensures rng == Advance(g0, NonStarts(FHSS_SEQUENCE_LEN, fc))
  {
    ghost var init := a[..];
    rng := g0;
    var i := 0;
    while i < FHSS_SEQUENCE_LEN
      invariant 0 <= i <= FHSS_SEQUENCE_LEN
      invariant ShuffleFrom(a[..], fc, rng, i) == ShuffleFrom(init, fc, g0, 0)
    {
      ghost var before := a[..];
      var g' := ShuffleAt(a, fc, rng, i);
      ShuffleFromUnfold(before, fc, rng, i);
      rng := g';
      i := i + 1;
    }
    ShuffleDraws(init, fc, g0, 0);
    assert ShuffleFrom(a[..], fc, rng, i) == (a[..], rng);
  }

  /** One step of the shuffle loop, then the rest of it. */
  lemma ShuffleFromUnfold(s: seq<int>, fc: int, g: Rng, i: nat)
    requires fc >= 1 && |s| == FHSS_SEQUENCE_LEN && i < FHSS_SEQUENCE_LEN
    ensures ShuffleFrom(s, fc, g, i) == ShuffleFrom(ShuffleStep(s, fc, g, i).0, fc, ShuffleStep(s, fc, g, i).1, i + 1)
  {
  }

  /** The facts `BuildSequence` reports, from the reference shuffle. */
  lemma BuiltTable(gen: Generator)
    requires gen.Valid()
    ensures var hops := ShuffleFrom(InitialAllocation(gen.freqCount, gen.syncChannel), gen.freqCount, gen.rng, 0).0;
      && |hops| == FHSS_SEQUENCE_LEN
      && (forall p :: 0 <= p < |hops| ==> 0 <= hops[p] < gen.freqCount)
      && (forall p :: 0 <= p < |hops| && p % gen.freqCount == 0 ==> hops[p] == gen.syncChannel)
      && multiset(hops) == multiset(InitialAllocation(gen.freqCount, gen.syncChannel))
      && (forall start: nat :: start % gen.freqCount == 0 && start + gen.freqCount <= |hops| ==>
            multiset(Chunk(hops, gen.freqCount, start)) == multiset(Range(gen.freqCount)))
    ensures NonStarts(FHSS_SEQUENCE_LEN, gen.freqCount) == FHSS_SEQUENCE_LEN - (FHSS_SEQUENCE_LEN + gen.freqCount - 1) / gen.freqCount
  {
    NonStartsCount(FHSS_SEQUENCE_LEN, gen.freqCount);
    ShuffledTable(gen.freqCount, gen.syncChannel, gen.rng);
  }

  /** What the whole shuffle guarantees about the allocated table: the length,
      channel indices only, the sync channel at every block start, the same
      channels overall, every full block a permutation of `0 .. fc-1`, and one
      draw per non-start position. */
  lemma ShuffledTable(fc: int, sync: int, g: Rng)
    requires fc >= 1 && sync == fc / 2
    ensures var init := InitialAllocation(fc, sync);
      var (hops, rng) := ShuffleFrom(init, fc, g, 0);
      && |hops| == FHSS_SEQUENCE_LEN
      && (forall p :: 0 <= p < |hops| ==> 0 <= hops[p] < fc)
      && (forall p :: 0 <= p < |hops| && p % fc == 0 ==> hops[p] == sync)
      && multiset(hops) == multiset(init)
      && (forall start: nat :: start % fc == 0 && start + fc <= |hops| ==>
            multiset(Chunk(hops, fc, start)) == multiset(Range(fc)))
      && rng == Advance(g, NonStarts(FHSS_SEQUENCE_LEN, fc))
  {
    var init := InitialAllocation(fc, sync);
    var hops := ShuffleFrom(init, fc, g, 0).0;
    ShuffleKeepsBlocks(init, fc, g, 0);
    ShuffleKeepsStarts(init, fc, g, 0);
    ShuffleKeepsChannels(init, fc, g, 0);
    ShuffleDraws(init, fc, g, 0);
    forall start: nat | start % fc == 0 && start + fc <= |hops|
      ensures multiset(Chunk(hops, fc, start)) == multiset(Range(fc))
    {
      InitialBlock(fc, sync, start);
    }
    MultisetOfBlocks(hops, init, fc);
  }

  /** Tables with the same blocks hold the same channels overall. */
  lemma MultisetOfBlocks(a: seq<int>, b: seq<int>, fc: int)
    requires fc >= 1 && SameBlocks(a, b, fc)
    ensures multiset(a) == multiset(b)
  {
    MultisetOfBlocksFrom(a, b, fc, 0);
    assert a[0..] == a && b[0..] == b;
  }

  /** The suffixes from a block start on hold the same channels. */
  lemma {:induction false} MultisetOfBlocksFrom(a: seq<int>, b: seq<int>, fc: int, start: nat)
    requires fc >= 1 && SameBlocks(a, b, fc) && start % fc == 0 && start <= |a|
    ensures multiset(a[start..]) == multiset(b[start..])
    decreases |a| - start
  {
    if start < |a| {
      var end := Min(start + fc, |a|);
      if end < |a| {
        assert end % fc == 0 by {
          Arith.DivMod(start, fc);
          Arith.DivModUnique(start / fc + 1, 0, fc);
        }
        MultisetOfBlocksFrom(a, b, fc, end);
      }
      assert a[start..] == Chunk(a, fc, start) + a[end..];
      assert b[start..] == Chunk(b, fc, start) + b[end..];
    }
  }
}

=== FILE: lcg.dfy ===
/**
  The firmware-compatible linear congruential generator (`FirmwareLCG`),
  which mimics the ESP32 `rand()`.

  Python's `x & 0xFFFFFFFF` and `x & 0x7FFFFFFF` on unbounded integers keep
  the low 32 and 31 bits of the two's-complement value, which for every
  integer, negative ones included, is Dafny's Euclidean `x % 2^32` and
  `x % 2^31`; the model writes them that way.
 */
module Lcg {
  import Arith
  import Bits

  const MULTIPLIER: nat := 1103515245
  const INCREMENT: nat := 12345
  /** `2^32`: the constructor keeps the seed's low 32 bits. */
  const SEED_MODULUS: nat := 0x1_0000_0000
  /** `2^31`: every step keeps the low 31 bits. */
  const STATE_MODULUS: nat := 0x8000_0000

  datatype Rng = Rng(state: nat)

  /** `FirmwareLCG(seed)`: the state is the seed reduced to 32 bits. */
  function Seeded(seed: int): (g: Rng)
    ensures g.state < SEED_MODULUS
    ensures (seed - g.state) % SEED_MODULUS == 0
    ensures 0 <= seed < SEED_MODULUS ==> g.state == seed
  {
    Arith.DivModUnique(seed / SEED_MODULUS, 0, SEED_MODULUS);
    Rng(seed % SEED_MODULUS)
  }

  /** The state after one step of the recurrence. */
  function Next(g: Rng): (g': Rng)
    ensures g'.state < STATE_MODULUS
  {
    Rng((MULTIPLIER * g.state + INCREMENT) % STATE_MODULUS)
  }

  /** Only the low 31 bits of the state reach the next one, so the top bit of
      a 32-bit seed is lost at the first step. */
  lemma NextIgnoresTopBit(g: Rng)
    ensures Next(g) == Next(Rng(g.state % STATE_MODULUS))
  {
    Arith.ModMulReduce(MULTIPLIER, g.state, INCREMENT, STATE_MODULUS);
  }

  /** `rand()`: one step; the draw is the new state, so it always fits in 31 bits. */
  function Rand(g: Rng): (r: (Rng, nat))
    ensures r.0 == Next(g) && r.1 == r.0.state
    ensures r.1 < STATE_MODULUS
  {
    var g' := Next(g);
    (g', g'.state)
  }

  /** `rand_range(max_val)`: one step, reduced with Python's `%`. */
  function RandRange(g: Rng, maxVal: int): (r: (Rng, int))
    requires maxVal != 0
    ensures r.0 == Next(g)
    ensures maxVal > 0 ==> 0 <= r.1 < maxVal
    ensures maxVal < 0 ==> maxVal < r.1 <= 0
    ensures (r.0.state - r.1) % Arith.Abs(maxVal) == 0
  {
    var (g', x) := Rand(g);
    Arith.PyModCongruent(x, maxVal);
    (g', Arith.PyMod(x, maxVal))
  }

  /** The state after `n` draws. */
  function Advance(g: Rng, n: nat): (a: Rng)
    ensures n >= 1 || g.state < STATE_MODULUS ==> a.state < STATE_MODULUS
    decreases n
  {
    if n == 0 then g else Advance(Next(g), n - 1)
  }

  /** `MULTIPLIER^n`. */
  function MulPower(n: nat): nat
  {
    if n == 0 then 1 else MULTIPLIER * MulPower(n - 1)
  }

  /** `INCREMENT * (1 + MULTIPLIER + ... + MULTIPLIER^(n-1))`. */
  function IncSum(n: nat): nat
  {
    if n == 0 then 0 else MulPower(n - 1) * INCREMENT + IncSum(n - 1)
  }

  /** `MULTIPLIER^(n+1) == MULTIPLIER^n * MULTIPLIER`, peeling the last factor. */
  lemma {:induction false} MulPowerSucc(n: nat)
    ensures MulPower(n + 1) == MulPower(n) * MULTIPLIER
  {
    if n > 0 {
      MulPowerSucc(n - 1);
    }
  }

  /** The step-by-step recurrence agrees with the closed (jump-ahead) form
      `state_n = (a^n * state_0 + c * (a^n - 1) / (a - 1)) mod 2^31`
      once the state has been reduced to 31 bits at least once. */
  lemma {:induction false} JumpAhead(g: Rng, n: nat)
    requires n >= 1 || g.state < STATE_MODULUS
    ensures Advance(g, n).state == (MulPower(n) * g.state + IncSum(n)) % STATE_MODULUS
    decreases n
  {
    if n == 0 {
      assert MulPower(0) * g.state + IncSum(0) == g.state;
    } else {
      assert Advance(g, n) == Advance(Next(g), n - 1);
      JumpAhead(Next(g), n - 1);
      JumpStep(g, n);
    }
  }

  /** One more step folds into the closed form: applying `n - 1` steps' worth of
      coefficients to the state after one step is applying `n` steps' worth. */
  lemma JumpStep(g: Rng, n: nat)
    requires n >= 1
    ensures (MulPower(n - 1) * Next(g).state + IncSum(n - 1)) % STATE_MODULUS
         == (MulPower(n) * g.state + IncSum(n)) % STATE_MODULUS
  {
    var s, a, c := g.state, MulPower(n - 1), IncSum(n - 1);
    Arith.ModMulReduce(a, MULTIPLIER * s + INCREMENT, c, STATE_MODULUS);
    MulPowerSucc(n - 1);
    assert a * (MULTIPLIER * s + INCREMENT) + c == (a * MULTIPLIER) * s + (a * INCREMENT + c);
  }

  /** Drawing `m` and then `n` times is drawing `m + n` times. */
  lemma {:induction false} AdvanceAdd(g: Rng, m: nat, n: nat)
    ensures Advance(Advance(g, m), n) == Advance(g, m + n)
    decreases m
  {
    if m > 0 {
      AdvanceAdd(Next(g), m - 1, n);
    }
  }

  /** The step is the source's literal `& 0x7FFFFFFF` mask. */
  lemma StepIsMasked(g: Rng)
    ensures Next(g).state == Bits.And(MULTIPLIER * g.state + INCREMENT, 0x7FFF_FFFF)
  {
    Bits.AndLowMask(MULTIPLIER * g.state + INCREMENT, 31);
    Bits.Pow2Table();
  }

  /** For a non-negative seed the constructor is the source's literal `& 0xFFFFFFFF` mask. */
  lemma SeedIsMasked(seed: nat)
    ensures Seeded(seed).state == Bits.And(seed, 0xFFFF_FFFF)
  {
    Bits.AndLowMask(seed, 32);
    Bits.Pow2Table();
  }

  /** From seed 0 the first three draws are 12345, 1406932606 and 654583775. */
  lemma GoldenFromZero()
    ensures Rand(Seeded(0)).1 == 12345
    ensures Rand(Rand(Seeded(0)).0).1 == 1406932606
    ensures Rand(Rand(Rand(Seeded(0)).0).0).1 == 654583775
  {
  }

  /** From the default phrase's seed 0x2A0D090C the first two draws are 1805038165 and 1010697322. */
  lemma GoldenFromDefaultSeed()
    ensures Rand(Seeded(0x2A0D_090C)).1 == 1805038165
    ensures Rand(Rand(Seeded(0x2A0D_090C)).0).1 == 1010697322
  {
  }

  /** A negative seed keeps its two's-complement low 32 bits: -1 seeds 0xFFFFFFFF. */
  lemma NegativeSeed()
    ensures Seeded(-1).state == 0xFFFF_FFFF
  {
  }
}

=== FILE: pipeline.dfy ===
/**
  The derivation `main` performs: phrase to UID to seed to hop table, for a
  named regulatory domain.
 */
module Pipeline {
  import opened Bytes
  import opened Wrappers
  import Uid
  import Seed
  import Lcg
  import Domains
  import Fhss

  /** What `main` reports: the UID, the seed, the channel found at index
      `freq_count` (the start of the second block) and the table. */
  datatype Report = Report(uid: seq<Byte>, seed: nat, syncChannel: int, hops: seq<int>)

  /** The whole derivation, or `None` for a domain outside the table. */
  method Derive(phrase: string, domain: string, md5: seq<Byte> -> Uid.Digest) returns (r: Option<Report>)
    ensures r.None? <==> Domains.Lookup(domain).None?
    ensures r.Some? ==>
      var fc := Domains.Lookup(domain).value.freqCount;
      && r.value.uid == Uid.GenerateUid(phrase, md5)
      && r.value.seed == Seed.ComputeSeed(r.value.uid)
      && |r.value.hops| == Fhss.FHSS_SEQUENCE_LEN
      && (forall p :: 0 <= p < |r.value.hops| ==> 0 <= r.value.hops[p] < fc)
      && r.value.syncChannel == fc / 2
      && r.value.hops == Fhss.ShuffleFrom(Fhss.InitialAllocation(fc, fc / 2), fc, Lcg.Seeded(r.value.seed), 0).0
  {
    var params := Domains.Lookup(domain);
    if params.None? {
      return None;
    }
    var fc := params.value.freqCount;
    var uid := Uid.GenerateUid(phrase, md5);
    var seed := Seed.ComputeSeed(uid);
    var gen := Fhss.NewGenerator(fc, seed);
    var hops, _ := Fhss.BuildSequence(gen);
    assert fc % fc == 0;
    r := Some(Report(uid, seed, hops[fc], hops));
  }

  /** Two runs on the same phrase and domain report the same table. */
  method DeterministicRuns(phrase: string, domain: string, md5: seq<Byte> -> Uid.Digest)
    returns (first: Option<Report>, second: Option<Report>)
    ensures first == second
  {
    first := Derive(phrase, domain, md5);
    second := Derive(phrase, domain, md5);
  }
}

=== FILE: seed.dfy ===
/**
  `compute_seed_from_uid`: folds the last four UID bytes and the protocol
  version into the 32-bit generator seed.
 */
module Seed {
  import opened Bytes
  import opened Bits
  import Arith

  /** `OTA_VERSION_ID`, mixed into the lowest seed byte. */
  const OTA_VERSION_ID: nat := 4

  /** The seed as the source writes it: `<<`, `|`, `^` and a 32-bit `&` mask. */
  function ComputeSeed(uid: seq<Byte>): (seed: nat)
    requires |uid| >= 6
    ensures seed < 0x1_0000_0000
  {
    var word := Or(Or(Or(ShiftLeft(uid[2], 24), ShiftLeft(uid[3], 16)), ShiftLeft(uid[4], 8)),
                   Xor(uid[5], OTA_VERSION_ID));
    AndAtMost(word, 0xFFFF_FFFF);
    And(word, 0xFFFF_FFFF)
  }

  /** The last UID byte with bit 2 (the version bit) flipped. */
  function FlipVersionBit(b: Byte): Byte
  {
    if (b / 4) % 2 == 0 then b + 4 else b - 4
  }

  /** The seed is the big-endian number spelled by `uid[2..5]`, with bit 2 of the last byte flipped. */
  lemma SeedArithmetic(uid: seq<Byte>)
    requires |uid| >= 6
    ensures ComputeSeed(uid) == uid[2] * 0x100_0000 + uid[3] * 0x1_0000 + uid[4] * 0x100 + FlipVersionBit(uid[5])
  {
    var a: nat, b: nat, c: nat, d: nat := uid[2], uid[3], uid[4], FlipVersionBit(uid[5]);
    var t1 := a * 0x100 + b;
    var t2 := t1 * 0x100 + c;
    var word := t2 * 0x100 + d;
    var x1 := Or(ShiftLeft(a, 24), ShiftLeft(b, 16));
    OrHighBytes(a, b);
    var x2 := Or(x1, ShiftLeft(c, 8));
    OrMiddleByte(t1, c);
    assert x2 == t2 * 0x100;
    XorVersion(uid[5]);
    var x3 := Or(x2, Xor(uid[5], OTA_VERSION_ID));
    OrLowByte(t2, d);
    assert x3 == word;
    Mask32Below(word);
    assert ComputeSeed(uid) == And(x3, 0xFFFF_FFFF);
  }

  /** `b ^ OTA_VERSION_ID` flips the version bit. */
  lemma XorVersion(b: Byte)
    ensures Xor(b, OTA_VERSION_ID) == FlipVersionBit(b)
  {
    XorFour(b);
  }

  /** `a << 24 | b << 16` is `(a << 8 | b) << 16` for a byte `b`. */
  lemma OrHighBytes(a: nat, b: nat)
    requires b < 0x100
    ensures Or(ShiftLeft(a, 24), ShiftLeft(b, 16)) == (a * 0x100 + b) * 0x1_0000
  {
    Pow2Table();
    OrLowBits(a, b, 8);
    OrScaled(a * 0x100, b, 16);
    assert ShiftLeft(a, 24) == (a * 0x100) * Pow2(16);
  }

  /** `t << 16 | c << 8` is `(t << 8 | c) << 8` for a byte `c`. */
  lemma OrMiddleByte(t: nat, c: nat)
    requires c < 0x100
    ensures Or(t * 0x1_0000, ShiftLeft(c, 8)) == (t * 0x100 + c) * 0x100
  {
    Pow2Table();
    OrLowBits(t, c, 8);
    OrScaled(t * 0x100, c, 8);
    assert t * 0x1_0000 == (t * 0x100) * Pow2(8);
  }

  /** `t << 8 | d` is `t * 256 + d` for a byte `d`. */
  lemma OrLowByte(t: nat, d: nat)
    requires d < 0x100
    ensures Or(t * 0x100, d) == t * 0x100 + d
  {
    Pow2Table();
    OrLowBits(t, d, 8);
  }

  /** Flipping the version bit twice restores the byte. */
  lemma FlipInvolutive(b: Byte)
    ensures FlipVersionBit(FlipVersionBit(b)) == b
  {
  }

  /** The first two UID bytes never reach the seed. */
  lemma SeedIgnoresPrefix(u: seq<Byte>, v: seq<Byte>)
    requires |u| >= 6 && |v| >= 6
    requires u[2..6] == v[2..6]
    ensures ComputeSeed(u) == ComputeSeed(v)
  {
    assert u[2] == v[2] && u[3] == v[3] && u[4] == v[4] && u[5] == v[5];
  }

  /** Reads `uid[2..5]` back out of a seed: the inverse of `ComputeSeed` on the bytes it uses. */
  function SeedTail(seed: nat): (tail: seq<Byte>)
    requires seed < 0x1_0000_0000
    ensures |tail| == 4
  {
    [seed / 0x100_0000, (seed / 0x1_0000) % 0x100, (seed / 0x100) % 0x100, FlipVersionBit(seed % 0x100)]
  }

  /** `SeedTail` recovers the four UID bytes the seed was computed from. */
  lemma SeedTailInverts(uid: seq<Byte>)
    requires |uid| >= 6
    ensures SeedTail(ComputeSeed(uid)) == uid[2..6]
  {
    SeedArithmetic(uid);
    BigEndianDigits(uid[2], uid[3], uid[4], FlipVersionBit(uid[5]));
    FlipInvolutive(uid[5]);
  }

  /** The seed determines `uid[2..5]`: distinct tails give distinct seeds. */
  lemma SeedInjectiveOnTail(u: seq<Byte>, v: seq<Byte>)
    requires |u| >= 6 && |v| >= 6
    requires ComputeSeed(u) == ComputeSeed(v)
    ensures u[2..6] == v[2..6]
  {
    SeedTailInverts(u);
    SeedTailInverts(v);
  }

  /** The four bytes of a 32-bit big-endian number are its base-256 digits. */
  lemma BigEndianDigits(a: Byte, b: Byte, c: Byte, d: Byte)
    ensures var n := a * 0x100_0000 + b * 0x1_0000 + c * 0x100 + d;
      n % 0x100 == d && (n / 0x100) % 0x100 == c && (n / 0x1_0000) % 0x100 == b && n / 0x100_0000 == a
  {
    var n := a * 0x100_0000 + b * 0x1_0000 + c * 0x100 + d;
    Arith.DivModUnique(a * 0x1_0000 + b * 0x100 + c, d, 0x100);
    Arith.DivModUnique(a * 0x100 + b, c * 0x100 + d, 0x1_0000);
    Arith.DivModUnique(a, b * 0x1_0000 + c * 0x100 + d, 0x100_0000);
    Arith.DivModUnique(a * 0x100, b, 0x100);
    Arith.DivModUnique(a, b, 0x100);
    Arith.DivModUnique(a * 0x100 + b, c, 0x100);
  }

  /** UID 00 00 2A 0D 09 08 gives the seed 0x2A0D090C. */
  lemma DefaultPhraseSeed(uid: seq<Byte>)
    requires uid == [0, 0, 42, 13, 9, 8]
    ensures ComputeSeed(uid) == 0x2A0D_090C
  {
    assert FlipVersionBit(8) == 0x0C by { assert (8 / 4) % 2 == 0; }
    assert uid[2] == 0x2A && uid[3] == 0x0D && uid[4] == 0x09 && uid[5] == 8;
    SeedArithmetic(uid);
  }
}

=== FILE: text.dfy ===
/**
  The string handling `generate_uid` relies on: Python's `str.split(sep)`,
  `str.isdigit` and `int(token)` on ASCII decimal tokens, and the UTF-8
  encoding that `str.encode()` applies.
 */
module Text {
  import opened Bytes

  /** Python's `s.split(sep)`: always at least one token, empty ones kept. */
  function Split(s: string, sep: char): (tokens: seq<string>)
    ensures |tokens| >= 1
    ensures forall k :: 0 <= k < |tokens| ==> sep !in tokens[k]
    decreases |s|
  {
    if |s| == 0 then [""]
    else
      var rest := Split(s[1..], sep);
      if s[0] == sep then [""] + rest
      else [[s[0]] + rest[0]] + rest[1..]
  }

  /** Python's `sep.join(tokens)`. */
  function Join(tokens: seq<string>, sep: char): string
    requires |tokens| >= 1
    decreases |tokens|
  {
    if |tokens| == 1 then tokens[0] else tokens[0] + [sep] + Join(tokens[1..], sep)
  }

  /** The number of occurrences of `c` in `s`. */
  function Count(s: string, c: char): nat
  {
    if |s| == 0 then 0 else (if s[0] == c then 1 else 0) + Count(s[1..], c)
  }

  /** Joining the tokens of a split gives back the string. */
  lemma {:induction false} JoinSplit(s: string, sep: char)
    ensures Join(Split(s, sep), sep) == s
    decreases |s|
  {
    if |s| > 0 {
      var rest := Split(s[1..], sep);
      JoinSplit(s[1..], sep);
      if s[0] == sep {
        assert Split(s, sep)[1..] == rest;
      } else if |rest| == 1 {
        assert Join(Split(s, sep), sep) == [s[0]] + rest[0];
      } else {
        var ts := Split(s, sep);
        assert ts[1..] == rest[1..];
        assert Join(rest, sep) == rest[0] + [sep] + Join(rest[1..], sep);
        assert s == [s[0]] + s[1..];
      }
    }
  }

  /** A split has one more token than there are separators. */
  lemma {:induction false} SplitLength(s: string, sep: char)
    ensures |Split(s, sep)| == Count(s, sep) + 1
    decreases |s|
  {
    if |s| > 0 {
      SplitLength(s[1..], sep);
    }
  }

  /** Splitting a separator-free prefix glues it onto the first token of the rest. */
  lemma {:induction false} SplitPrefix(t: string, u: string, sep: char)
    requires sep !in t
    ensures Split(t + u, sep) == [t + Split(u, sep)[0]] + Split(u, sep)[1..]
    decreases |t|
  {
    var su := Split(u, sep);
    if |t| == 0 {
      assert t + u == u && t + su[0] == su[0];
      assert su == [su[0]] + su[1..];
    } else {
      assert (t + u)[1..] == t[1..] + u;
      SplitPrefix(t[1..], u, sep);
      var rest := Split(t[1..] + u, sep);
      assert rest[0] == t[1..] + su[0];
      assert rest[1..] == su[1..];
      assert [t[0]] + (t[1..] + su[0]) == t + su[0];
    }
  }

  /** Splitting a join of separator-free tokens gives back the tokens. */
  lemma {:induction false} SplitJoin(tokens: seq<string>, sep: char)
    requires |tokens| >= 1
    requires forall k :: 0 <= k < |tokens| ==> sep !in tokens[k]
    ensures Split(Join(tokens, sep), sep) == tokens
    decreases |tokens|
  {
    var t := tokens[0];
    if |tokens| == 1 {
      SplitPrefix(t, "", sep);
      assert t + "" == t;
    } else {
      var rest := Join(tokens[1..], sep);
      SplitJoin(tokens[1..], sep);
      assert t + [sep] + rest == t + ([sep] + rest);
      SplitPrefix(t, [sep] + rest, sep);
      assert ([sep] + rest)[1..] == rest;
      assert Split([sep] + rest, sep) == [""] + tokens[1..];
      assert t + "" == t;
      assert tokens == [t] + tokens[1..];
    }
  }

  predicate IsDigit(c: char)
  {
    '0' <= c <= '9'
  }

  /** `token.isdigit()`, restricted to ASCII digits: non-empty and all digits. */
  predicate IsDigitToken(token: string)
    ensures IsDigitToken(token) ==> |token| > 0 && '-' !in token && '+' !in token && ' ' !in token && '_' !in token
  {
    |token| > 0 && forall k :: 0 <= k < |token| ==> IsDigit(token[k])
  }

  /** `int(token)` on a string of ASCII digits (leading zeros allowed). */
  function DecimalValue(digits: string): (v: nat)
    requires forall k :: 0 <= k < |digits| ==> IsDigit(digits[k])
    ensures v < Pow10(|digits|)
    ensures |digits| > 0 && digits[0] != '0' ==> Pow10(|digits| - 1) <= v
    decreases |digits|
  {
    if |digits| == 0 then 0
    else DecimalValue(digits[..|digits| - 1]) * 10 + DigitValue(digits[|digits| - 1])
  }

  function DigitValue(c: char): nat
    requires IsDigit(c)
  {
    c as int - '0' as int
  }

  function Pow10(n: nat): nat
  {
    if n == 0 then 1 else 10 * Pow10(n - 1)
  }

  /** The canonical decimal spelling of `n`, as Python's `str(n)` writes it. */
  function ToDecimal(n: nat): (s: string)
    ensures |s| >= 1
    ensures forall k :: 0 <= k < |s| ==> IsDigit(s[k])
    decreases n
  {
    var d := ['0' + (n % 10) as char];
    if n < 10 then d else ToDecimal(n / 10) + d
  }

  /** Reading back a canonical decimal spelling gives the number. */
  lemma {:induction false} DecimalRoundTrip(n: nat)
    ensures DecimalValue(ToDecimal(n)) == n
    decreases n
  {
    var s := ToDecimal(n);
    if n >= 10 {
      DecimalRoundTrip(n / 10);
      assert s[..|s| - 1] == ToDecimal(n / 10);
    }
  }

  /** A leading zero does not change the value `int()` reads: `int("05") == int("5")`. */
  lemma {:induction false} DecimalLeadingZero(digits: string)
    requires forall k :: 0 <= k < |digits| ==> IsDigit(digits[k])
    ensures DecimalValue(['0'] + digits) == DecimalValue(digits)
    decreases |digits|
  {
    if |digits| > 0 {
      var n := |digits|;
      assert (['0'] + digits)[..n] == ['0'] + digits[..n - 1];
      assert (['0'] + digits)[n] == digits[n - 1];
      DecimalLeadingZero(digits[..n - 1]);
    }
  }

  /** A byte is spelled with at most three digits. */
  lemma ByteSpellingLength(b: nat)
    requires b < 256
    ensures |ToDecimal(b)| <= 3
  {
    if b >= 100 {
      assert |ToDecimal(b / 100)| == 1;
      assert |ToDecimal(b / 10)| == 2;
    } else if b >= 10 {
      assert |ToDecimal(b / 10)| == 1;
    }
  }

  /** The UTF-8 encoding of one Unicode scalar value, as `str.encode()` produces it. */
  function EncodeChar(c: char): (bs: seq<Byte>)
    ensures 1 <= |bs| <= 4
    ensures |bs| == if c as int < 0x80 then 1 else if c as int < 0x800 then 2 else if c as int < 0x1_0000 then 3 else 4
    ensures (|bs| == 1) == (bs[0] < 0x80)
    ensures |bs| > 1 ==> forall k :: 1 <= k < |bs| ==> 0x80 <= bs[k] < 0xC0
  {
    var v := c as int;
    if v < 0x80 then [v]
    else if v < 0x800 then [0xC0 + v / 0x40, 0x80 + v % 0x40]
    else if v < 0x1_0000 then [0xE0 + v / 0x1000, 0x80 + (v / 0x40) % 0x40, 0x80 + v % 0x40]
    else [0xF0 + v / 0x4_0000, 0x80 + (v / 0x1000) % 0x40, 0x80 + (v / 0x40) % 0x40, 0x80 + v % 0x40]
  }

  /** Decodes one scalar value from the front of a well-formed UTF-8 sequence. */
  function DecodeChar(bs: seq<Byte>): int
    requires |bs| >= 1
  {
    var b0 := bs[0] as int;
    if b0 < 0x80 then b0
    else if b0 < 0xE0 && |bs| >= 2 then (b0 - 0xC0) * 0x40 + Cont(bs[1])
    else if b0 < 0xF0 && |bs| >= 3 then (b0 - 0xE0) * 0x1000 + Cont(bs[1]) * 0x40 + Cont(bs[2])
    else if |bs| >= 4 then (b0 - 0xF0) * 0x4_0000 + Cont(bs[1]) * 0x1000 + Cont(bs[2]) * 0x40 + Cont(bs[3])
    else -1
  }

  /** The six payload bits of a continuation byte. */
  function Cont(b: Byte): int
  {
    b as int - 0x80
  }

  /** Encoding a character and decoding the bytes gives its code point back. */
  lemma EncodeCharRoundTrip(c: char)
    ensures DecodeChar(EncodeChar(c)) == c as int
  {
    var v := c as int;
    if 0x80 <= v < 0x800 {
      SixBitSplit(v);
    } else if 0x800 <= v < 0x1_0000 {
      SixBitSplit(v / 0x40);
      SixBitSplit(v);
    } else if 0x1_0000 <= v {
      SixBitSplit(v / 0x1000);
      SixBitSplit(v / 0x40);
      SixBitSplit(v);
    }
  }

  /** Peeling the low six bits off a number: `v == (v / 64) * 64 + v % 64`,
      and `(v / 64) / 64 == v / 4096`. */
  lemma SixBitSplit(v: nat)
    ensures v == (v / 0x40) * 0x40 + v % 0x40
    ensures (v / 0x40) / 0x40 == v / 0x1000
    ensures (v / 0x1000) / 0x40 == v / 0x4_0000
  {
  }

  /** `s.encode()`: the UTF-8 bytes of a string. */
  function Utf8(s: string): (bs: seq<Byte>)
    ensures |s| <= |bs| <= 4 * |s|
    decreases |s|
  {
    if |s| == 0 then [] else EncodeChar(s[0]) + Utf8(s[1..])
  }

  /** Encoding distributes over concatenation. */
  lemma {:induction false} Utf8Append(s: string, t: string)
    ensures Utf8(s + t) == Utf8(s) + Utf8(t)
    decreases |s|
  {
    if |s| == 0 {
      assert s + t == t;
    } else {
      assert (s + t)[0] == s[0];
      assert (s + t)[1..] == s[1..] + t;
      Utf8Append(s[1..], t);
      assert EncodeChar(s[0]) + (Utf8(s[1..]) + Utf8(t)) == (EncodeChar(s[0]) + Utf8(s[1..])) + Utf8(t);
    }
  }

  /** An ASCII string encodes to one byte per character, the character's code. */
  lemma {:induction false} Utf8Ascii(s: string)
    requires forall k :: 0 <= k < |s| ==> s[k] as int < 0x80
    ensures |Utf8(s)| == |s|
    ensures forall k :: 0 <= k < |s| ==> Utf8(s)[k] == s[k] as int
    decreases |s|
  {
    if |s| > 0 {
      Utf8Ascii(s[1..]);
    }
  }
}

=== FILE: uid.dfy ===
/**
  `generate_uid`: a binding phrase becomes a 6-byte UID, either read
  directly from 4 to 6 comma-separated decimal bytes or, for any other
  phrase, taken from the front of an MD5 digest of the phrase wrapped in the
  firmware's build-flag template.
 */
module Uid {
  import opened Bytes
  import opened Text
  import opened Wrappers

  const UID_LEN: nat := 6
  const SEPARATOR: char := ','

  /** A 16-byte MD5 digest. The hash itself is an external function, so every
      operation that needs it takes it as a parameter of this type. */
  type Digest = s: seq<Byte> | |s| == 16 witness [0, 0, 0, 0, 0, 0, 0, 0, 0, 0, 0, 0, 0, 0, 0, 0]

  /** CPython's default limit on the digits `int()` converts from a string
      (`sys.int_info.default_max_str_digits`, since Python 3.11). A longer
      digit string makes `int()` raise `ValueError`. */
  const MAX_STR_DIGITS: nat := 4300

  /** `int(item) if item.isdigit() else -1`: non-digit tokens read as the
      sentinel -1. A digit token too long for `int()` reads as -1 as well: its
      `ValueError` is caught at line 58 and reaches the same fallback at line 60
      that a -1 reaches through the range test at line 55. */
  function TokenValue(token: string): (v: int)
    ensures v >= -1
    ensures v == -1 <==> !IsDigitToken(token) || |token| > MAX_STR_DIGITS
    ensures IsDigitToken(token) && |token| <= MAX_STR_DIGITS ==> v == DecimalValue(token)
  {
    if IsDigitToken(token) && |token| <= MAX_STR_DIGITS then DecimalValue(token) else -1
  }

  /** The list comprehension over the split phrase. Its values pass the range
      test of line 55 exactly when every token is a byte token. */
  function TokenValues(tokens: seq<string>): (vs: seq<int>)
    ensures |vs| == |tokens|
    ensures forall k :: 0 <= k < |tokens| ==> vs[k] == TokenValue(tokens[k])
    ensures (forall k :: 0 <= k < |vs| ==> 0 <= vs[k] < 256) <==> (forall k :: 0 <= k < |tokens| ==> IsByteToken(tokens[k]))
  {
    seq(|tokens|, k requires 0 <= k < |tokens| => TokenValue(tokens[k]))
  }

  /** A token that the direct path accepts: ASCII digits that `int()` reads,
      spelling a value below 256 (leading zeros allowed). */
  predicate IsByteToken(token: string)
  {
    IsDigitToken(token) && |token| <= MAX_STR_DIGITS && DecimalValue(token) < 256
  }

  /** A phrase the direct path accepts: 4 to 6 comma-separated byte tokens. */
  predicate IsUidPhrase(phrase: string)
  {
    var tokens := Split(phrase, SEPARATOR);
    4 <= |tokens| <= UID_LEN && forall k :: 0 <= k < |tokens| ==> IsByteToken(tokens[k])
  }

  /** `bytes(...)` over values already known to fit in a byte. */
  function ToBytes(vs: seq<int>): (bs: seq<Byte>)
    requires forall k :: 0 <= k < |vs| ==> 0 <= vs[k] < 256
    ensures |bs| == |vs| && forall k :: 0 <= k < |vs| ==> bs[k] == vs[k]
  {
    seq(|vs|, k requires 0 <= k < |vs| => vs[k] as Byte)
  }

  /** The direct path (lines 54-57): the left-zero-padded token values, or
      `None` when the count or some value is out of range. */
  function ParseUid(phrase: string): (r: Option<seq<Byte>>)
    ensures r.Some? <==> IsUidPhrase(phrase)
    ensures r.Some? ==> var tokens := Split(phrase, SEPARATOR);
      && |r.value| == UID_LEN
      && (forall k :: 0 <= k < UID_LEN - |tokens| ==> r.value[k] == 0)
      && (forall k :: 0 <= k < |tokens| ==> r.value[UID_LEN - |tokens| + k] == DecimalValue(tokens[k]))
  {
    var vals := TokenValues(Split(phrase, SEPARATOR));
    if 4 <= |vals| <= UID_LEN && forall k :: 0 <= k < |vals| ==> 0 <= vals[k] < 256
    then Some(Zeros(UID_LEN - |vals|) + ToBytes(vals))
    else None
  }

  /** The f-string `-DMY_BINDING_PHRASE="<phrase>"`. */
  function BindingFlag(phrase: string): (flag: string)
    ensures |flag| == |FLAG_PREFIX| + |phrase| + 1
    ensures flag[..|FLAG_PREFIX|] == FLAG_PREFIX
    ensures flag[|FLAG_PREFIX|..|flag| - 1] == phrase
    ensures flag[|flag| - 1] == '"'
  {
    FLAG_PREFIX + phrase + "\""
  }

  const FLAG_PREFIX: string := "-DMY_BINDING_PHRASE=\""

  /** The ASCII codes of `FLAG_PREFIX`. */
  const FLAG_PREFIX_BYTES: seq<Byte> :=
    [0x2D, 0x44, 0x4D, 0x59, 0x5F, 0x42, 0x49, 0x4E, 0x44, 0x49, 0x4E,
     0x47, 0x5F, 0x50, 0x48, 0x52, 0x41, 0x53, 0x45, 0x3D, 0x22]

  /** The fallback path (line 60): the first six bytes of the flag's MD5 digest. */
  function HashedUid(phrase: string, md5: seq<Byte> -> Digest): (uid: seq<Byte>)
    ensures |uid| == UID_LEN
    ensures uid == md5(FLAG_PREFIX_BYTES + Utf8(phrase) + [0x22])[..UID_LEN]
  {
    var digest: Digest := md5(Utf8(BindingFlag(phrase)));
    BindingFlagBytes(phrase);
    digest[..UID_LEN]
  }

  /** `generate_uid(phrase)`: always six bytes, from whichever path applies. */
  function GenerateUid(phrase: string, md5: seq<Byte> -> Digest): (uid: seq<Byte>)
    ensures |uid| == UID_LEN
    ensures IsUidPhrase(phrase) ==> uid == ParseUid(phrase).value
    ensures !IsUidPhrase(phrase) ==> uid == HashedUid(phrase, md5)
  {
    match ParseUid(phrase)
    case Some(u) => u
    case None => HashedUid(phrase, md5)
  }

  /** The phrase that spells `bs` as comma-separated decimals. */
  function FormatPhrase(bs: seq<Byte>): string
    requires |bs| >= 1
  {
    Join(seq(|bs|, k requires 0 <= k < |bs| => ToDecimal(bs[k])), SEPARATOR)
  }

  /** Round trip: spelling 4 to 6 bytes as a phrase and deriving its UID gives
      those bytes back, left-padded with zeros to six. */
  lemma UidOfFormattedPhrase(bs: seq<Byte>, md5: seq<Byte> -> Digest)
    requires 4 <= |bs| <= UID_LEN
    ensures GenerateUid(FormatPhrase(bs), md5) == Zeros(UID_LEN - |bs|) + bs
  {
    var tokens := seq(|bs|, k requires 0 <= k < |bs| => ToDecimal(bs[k]));
    forall k | 0 <= k < |tokens|
      ensures SEPARATOR !in tokens[k] && IsByteToken(tokens[k]) && DecimalValue(tokens[k]) == bs[k]
    {
      DecimalRoundTrip(bs[k]);
      ByteSpellingLength(bs[k]);
    }
    SplitJoin(tokens, SEPARATOR);
    assert Split(FormatPhrase(bs), SEPARATOR) == tokens;
  }

  /** The default phrase "42,13,9,8" yields UID 00 00 2A 0D 09 08. */
  lemma DefaultPhraseUid(phrase: string, md5: seq<Byte> -> Digest)
    requires phrase == "42,13,9,8"
    ensures GenerateUid(phrase, md5) == [0, 0, 42, 13, 9, 8]
  {
    var bs: seq<Byte> := [42, 13, 9, 8];
    DefaultPhraseSpelling(bs);
    UidOfFormattedPhrase(bs, md5);
    assert Zeros(2) + bs == [0, 0, 42, 13, 9, 8];
  }

  /** The bytes 42, 13, 9, 8 are spelled "42,13,9,8". */
  lemma DefaultPhraseSpelling(bs: seq<Byte>)
    requires bs == [42, 13, 9, 8]
    ensures FormatPhrase(bs) == "42,13,9,8"
  {
    assert ToDecimal(42) == "42" && ToDecimal(13) == "13" && ToDecimal(9) == "9" && ToDecimal(8) == "8";
    var tokens := ["42", "13", "9", "8"];
    assert seq(|bs|, k requires 0 <= k < |bs| => ToDecimal(bs[k])) == tokens;
    assert Join(tokens[3..], SEPARATOR) == "8";
    assert Join(tokens[2..], SEPARATOR) == "9,8";
    assert Join(tokens[1..], SEPARATOR) == "13,9,8";
  }

  /** A phrase with fewer than three or more than five commas is hashed. */
  lemma WrongCountIsHashed(phrase: string, md5: seq<Byte> -> Digest)
    requires Count(phrase, SEPARATOR) < 3 || Count(phrase, SEPARATOR) > 5
    ensures GenerateUid(phrase, md5) == HashedUid(phrase, md5)
  {
    SplitLength(phrase, SEPARATOR);
  }

  /** The empty phrase splits into one empty token and is hashed. */
  lemma EmptyPhraseIsHashed(md5: seq<Byte> -> Digest)
    ensures GenerateUid("", md5) == md5(Utf8("-DMY_BINDING_PHRASE=\"\""))[..UID_LEN]
  {
    assert Split("", SEPARATOR) == [""];
    assert BindingFlag("") == "-DMY_BINDING_PHRASE=\"\"";
  }

  /** A phrase holding any character other than a digit or a comma is hashed:
      signs, spaces and letters all make some token fail `isdigit`. */
  lemma StrayCharacterIsHashed(phrase: string, i: nat, md5: seq<Byte> -> Digest)
    requires i < |phrase| && phrase[i] != SEPARATOR && !IsDigit(phrase[i])
    ensures GenerateUid(phrase, md5) == HashedUid(phrase, md5)
  {
    JoinSplit(phrase, SEPARATOR);
    var tokens := Split(phrase, SEPARATOR);
    if 4 <= |tokens| <= UID_LEN && forall k :: 0 <= k < |tokens| ==> IsByteToken(tokens[k]) {
      JoinDigits(tokens);
      assert false;
    }
  }

  /** Joining digit tokens with commas gives a string of digits and commas only. */
  lemma {:induction false} JoinDigits(tokens: seq<string>)
    requires |tokens| >= 1
    requires forall k :: 0 <= k < |tokens| ==> IsDigitToken(tokens[k])
    ensures forall i :: 0 <= i < |Join(tokens, SEPARATOR)| ==>
      Join(tokens, SEPARATOR)[i] == SEPARATOR || IsDigit(Join(tokens, SEPARATOR)[i])
    decreases |tokens|
  {
    if |tokens| > 1 {
      JoinDigits(tokens[1..]);
    }
  }

  /** A token spelling 256 or more sends the phrase to the hash. */
  lemma LargeValueIsHashed(phrase: string, k: nat, md5: seq<Byte> -> Digest)
    requires k < |Split(phrase, SEPARATOR)|
    requires IsDigitToken(Split(phrase, SEPARATOR)[k]) && DecimalValue(Split(phrase, SEPARATOR)[k]) >= 256
    ensures GenerateUid(phrase, md5) == HashedUid(phrase, md5)
  {
  }

  /** A digit token longer than `int()` accepts sends the phrase to the hash,
      whatever the other tokens hold. */
  lemma LongTokenIsHashed(phrase: string, k: nat, md5: seq<Byte> -> Digest)
    requires k < |Split(phrase, SEPARATOR)|
    requires IsDigitToken(Split(phrase, SEPARATOR)[k]) && |Split(phrase, SEPARATOR)[k]| > MAX_STR_DIGITS
    ensures GenerateUid(phrase, md5) == HashedUid(phrase, md5)
  {
    assert !IsByteToken(Split(phrase, SEPARATOR)[k]);
  }

  /** The hashed bytes are the ASCII flag prefix, the phrase's UTF-8 bytes and a closing quote. */
  lemma BindingFlagBytes(phrase: string)
    ensures Utf8(BindingFlag(phrase)) == FLAG_PREFIX_BYTES + Utf8(phrase) + [0x22]
  {
    FlagPrefixBytes();
    Utf8Append(FLAG_PREFIX + phrase, "\"");
    Utf8Append(FLAG_PREFIX, phrase);
    assert Utf8("\"") == [0x22];
  }

  /** The flag prefix is plain ASCII, so its UTF-8 encoding is its character codes. */
  lemma FlagPrefixBytes()
    ensures Utf8(FLAG_PREFIX) == FLAG_PREFIX_BYTES
  {
    AsciiFlag(FLAG_PREFIX, FLAG_PREFIX_BYTES);
  }

  /** A string whose character codes are the ASCII bytes `bs` encodes to `bs`. */
  lemma AsciiFlag(s: string, bs: seq<Byte>)
    requires |s| == |bs| && forall k :: 0 <= k < |s| ==> s[k] as int == bs[k] < 0x80
    ensures Utf8(s) == bs
  {
    Utf8Ascii(s);
  }
}

=== FILE: wrappers.dfy ===
/** Optional values, for lookups and the UID parse that can come back empty. */
module Wrappers {

  datatype Option<+T> = None | Some(value: T)
}
